=== FILE: README.md ===
# Loyal customers, modelled in Dafny

`loyal_customers.php` reads two days of page-view logs and prints the customers who
visited at least two distinct pages on each day. Every log line is
`<timestamp> <pageId> <customerId>`. Each day's log becomes an insertion-ordered map
from customer id to that customer's set of distinct pages. The day-1 customers are then
walked in key order, and those that also appear on day 2 with at least two pages on both
days are printed under the header `Loyal Customers ID:`. When there are none, the line
`Loyal customers not available.` is printed instead.

The model has five modules:

- `Wrappers` holds `Option`.
- `Seqs` holds duplicate-freedom and "first-appearance order" (`FirstIndex`, `InOrderOf`)
  on sequences.
- `LogLine` holds one line: whitespace, PHP's `trim`, `preg_split('/\s+/', …)` and the
  extraction of the three fields.
- `DailyVisits` holds one day. `VisitMap` is the PHP ordered array: a key order plus a
  map from key to page set. `ParseLog` folds the lines into it in file order.
- `Loyalty` holds the filter over day 1's keys, the rendering of the report, and the
  end-to-end `Report` on two logs given as their lines.

`Scenarios` works through a worked two-day example (`cust1` qualifies, `cust2` does
not), a line whose fields are separated by a tab and a double space, and the
empty-log case (`EmptyLogReport`, an instance of `Loyalty.NoRecordsReport`).

A line is trimmed first and then split on whitespace runs. A line with leading blanks therefore
still yields its three fields in place, and never a leading empty field. A blank line
yields the single empty field and is skipped.

## Model

| member | source | states |
|---|---|---|
| LogLine.Trim | loyal_customers.php:41 | The trimmed line has no whitespace at either end. It is empty exactly when the line is blank. |
| LogLine.TrimPadded | loyal_customers.php:41 | Trimming a string padded with whitespace on both sides gives back the string, when its own ends are not whitespace. |
| LogLine.SplitOnSpaceRuns | loyal_customers.php:41 | `preg_split('/\s+/', …)`: there is always at least one piece, and no piece contains whitespace. Its inverse on tokens is `SplitJoinWith`. |
| LogLine.SplitFromNoSpace | loyal_customers.php:41 | Whatever the string, no piece of its split contains whitespace. |
| LogLine.Fields | loyal_customers.php:41 | No field of a trimmed-and-split line contains whitespace. A blank line gives exactly one empty field. Any other line gives only non-empty fields. |
| LogLine.SplitFromTokens | loyal_customers.php:41 | Splitting a string with non-blank ends gives only non-empty, whitespace-free fields. |
| LogLine.SplitFromShift | loyal_customers.php:41 | Splitting from a position depends only on the text from that position on. |
| LogLine.SplitAfterSep | loyal_customers.php:41 | A token, then any non-empty run of whitespace, then text starting with a non-blank, splits into that token followed by the fields of the rest. |
| LogLine.SplitToken | loyal_customers.php:41 | A token splits into itself alone. |
| LogLine.SplitJoinWith | loyal_customers.php:41 | Splitting tokens joined by any non-empty whitespace runs (spaces, tabs, mixed) gives the same tokens back, in order. |
| LogLine.SplitJoin | loyal_customers.php:41 | Splitting tokens joined by single spaces gives the same tokens back, in order. |
| LogLine.ParseLine | loyal_customers.php:41-44 | A line is skipped exactly when it has fewer than three fields. Blank lines are always skipped. An accepted line's timestamp, page and customer are tokens. |
| LogLine.ParseSeparatedLine | loyal_customers.php:39-44 | A line of three or more tokens separated by any non-empty whitespace runs, with any whitespace before and after, carries its first three fields as timestamp, page and customer. |
| LogLine.ParseJoinedLine | loyal_customers.php:41-44 | A line of three or more tokens carries its first three fields as timestamp, page and customer. Extra fields are ignored. |
| LogLine.ParseFormattedLine | loyal_customers.php:39-44 | Round trip: a record written as a line, with any extra fields and surrounding whitespace (such as the newline `fgets` keeps), parses back to that record. |
| LogLine.BlankLineCarriesNoRecord | loyal_customers.php:41-42 | An empty or blank line has the single field `""` and is skipped. |
| DailyVisits.Insert | loyal_customers.php:46-52 | Validity is preserved. The keys gain exactly the customer. The customer's set gains exactly the page. Every other customer's set is unchanged. An existing key keeps its position; a new key goes last. |
| DailyVisits.InsertRecorded | loyal_customers.php:51-52 | Inserting a pair already recorded leaves the map unchanged, key order included. |
| DailyVisits.InsertIdempotent | loyal_customers.php:51-52 | Inserting a pair twice is the same as inserting it once. |
| DailyVisits.ProcessLine | loyal_customers.php:41-52 | One line preserves validity, and a line with fewer than three fields leaves the map unchanged. |
| DailyVisits.ParseLog | loyal_customers.php:30-57 | The map of a log lists every key exactly once in its key order, and lists nothing else. |
| DailyVisits.Accepted | loyal_customers.php:39-44 | Reference list of the records carried by the accepted lines. Every accepted line's record is in it, and nothing else is. |
| DailyVisits.ParseLogContents | loyal_customers.php:37-56 | The keys are exactly the customer fields of the accepted lines. Each customer's set is exactly the page fields of that customer's accepted lines. |
| DailyVisits.InsertKeepsFirstAppearanceOrder | loyal_customers.php:46-52 | Inserting a pair keeps the key order in first-appearance order. |
| DailyVisits.ParseLogOrder | loyal_customers.php:39-53 | The key order is the order in which customers first appear among the accepted lines. |
| DailyVisits.ParseLogOrderUnique | loyal_customers.php:39-53 | Any listing of the log's customers in first-appearance order is the map's key order, so the order is fully determined by the log. |
| DailyVisits.ParseLogKeysAreTokens | loyal_customers.php:41-47 | Every customer id in a parsed map is non-empty and free of whitespace. |
| DailyVisits.ParseLogExtend | loyal_customers.php:39-53 | Two log prefixes with equal maps still have equal maps when the same lines follow both. |
| DailyVisits.ShortLineIgnored | loyal_customers.php:42 | A line with fewer than three fields, anywhere in a log, has no effect: the log parses as if it were absent. |
| DailyVisits.RepeatedLineNoOp | loyal_customers.php:51-52 | Repeating an earlier line at the end of a log leaves the map unchanged. |
| DailyVisits.RepeatedLineIgnored | loyal_customers.php:51-52 | A repeat of an earlier line, anywhere after it, has no effect on the map. |
| DailyVisits.ParseLogNoRecords | loyal_customers.php:37-56 | A log with no accepted line yields the empty map. |
| Loyalty.FilterLoyal | loyal_customers.php:80-87 | A customer is in the result iff it is among the keys walked and loyal (on both days, with at least the threshold of pages on each). For duplicate-free keys, the result keeps the keys' order. |
| Loyalty.LoyalCustomers | loyal_customers.php:80-87 | For a valid day-1 map: membership holds iff the customer is loyal. The result follows day 1's key order and has no duplicates. |
| Loyalty.LoyalCustomersUnique | loyal_customers.php:80-87 | Any listing of exactly the loyal customers in day 1's key order is the result, so the filter is fully determined by its contract. |
| Loyalty.ExactlyTwoPagesQualify | loyal_customers.php:83 | For a valid day-1 map, exactly two distinct pages on each day qualifies, because the threshold is inclusive. |
| Loyalty.OnePageDisqualifies | loyal_customers.php:83 | For a valid day-1 map, at most one distinct page on either day disqualifies. |
| Loyalty.DayTwoOnlyNeverListed | loyal_customers.php:80-81 | For a valid day-1 map, a customer absent from day 1 is never listed, whatever its day-2 pages. |
| Loyalty.Render | loyal_customers.php:90-98 | The output starts with the header and has at least two lines. For non-empty, whitespace-free ids, the "not available" line appears iff the list is empty. |
| Loyalty.RenderRoundTrip | loyal_customers.php:90-98 | For non-empty, whitespace-free ids, reading a rendered report gives back exactly the listed ids, in order. |
| Loyalty.ReadReportRoundTrip | loyal_customers.php:90-98 | Rendering what a report reads back as reproduces the report. |
| Loyalty.ReportOf | loyal_customers.php:80-98 | The report starts with the header. For a valid day-1 map whose keys are non-empty and whitespace-free, reading it back gives exactly the loyal customers of the two maps, in day 1's key order. |
| Loyalty.Report | loyal_customers.php:60-98 | The report of two logs starts with the header. Reading it back gives exactly the customers loyal by the two parsed maps, in day 1's key order. |
| Loyalty.Text | loyal_customers.php:90-97 | The printed text is empty iff there are no lines. Otherwise it starts with the first line and a newline, and ends with a newline. |
| Loyalty.TextLine | loyal_customers.php:90-97 | One line is printed as that line followed by a newline. With `TextAppend` this determines the printed text of every report: each line once, in order, each followed by a newline. |
| Loyalty.ListedReportText | loyal_customers.php:90-97 | A report listing ids prints the header line, then each id on its own line. |
| Loyalty.TextAppend | loyal_customers.php:90-97 | Each line is printed on its own: the text of two line sequences one after the other is the two texts one after the other. |
| Loyalty.ReportOfCorrect | loyal_customers.php:80-98 | For a valid day-1 map whose keys are non-empty and whitespace-free and whose key order is the first-appearance order of day 1's records, and maps whose page sets agree with two days' records, the report lists exactly the customers loyal by those records, in first-appearance order of day 1. It says "not available" iff there are none. |
| Loyalty.ReportCorrect | loyal_customers.php:60-98 | End to end on two logs: the report starts with the header, and lists exactly the customers with at least two distinct pages in each day's accepted lines. Each is listed once, in order of first appearance in day 1's log. "Not available" is printed iff there are none. |
| Loyalty.EmptyDayReport | loyal_customers.php:80-93 | For a valid day-1 map, when either day's map is empty, the report is the header and the "not available" line. |
| Loyalty.NoneAvailableText | loyal_customers.php:90-93 | The text of the "none" report is the two lines, each ended by a newline. |
| Loyalty.NoRecordsReport | loyal_customers.php:39-93 | When either log has only empty, blank or short lines, the printed text is exactly `Loyal Customers ID:\nLoyal customers not available.\n`. |
| Scenarios.ThreeFieldLine | loyal_customers.php:41-44 | A line of three tokens separated by single spaces carries those three fields. |
| Scenarios.MixedSeparatorLine | loyal_customers.php:39-44 | Three token fields separated by any whitespace runs, and followed by any whitespace, are the line's timestamp, page and customer. |
| Scenarios.TabSeparatedLine | loyal_customers.php:39-44 | The line `10:00<TAB>pageA<SPACE><SPACE>cust1<LF>` carries the record (`10:00`, `pageA`, `cust1`). |
| Scenarios.ExampleDay | loyal_customers.php:37-53 | One customer visits two pages, then a second customer visits the first page. The result is both keys in that order, with sets {p1, p2} and {p1}. |
| Scenarios.ExampleLog | loyal_customers.php:30-57 | A three-line log of single-spaced tokens, where one customer visits two pages and a second customer visits the first, yields those two keys in that order, with their page sets. |
| Scenarios.ExampleDayOne | loyal_customers.php:30-57 | The worked example's day-1 log yields `cust1 -> {pageA, pageB}` and `cust2 -> {pageA}`, in that key order. |
| Scenarios.ExampleDayTwo | loyal_customers.php:30-57 | The worked example's day-2 log yields `cust1 -> {pageC, pageD}` and `cust2 -> {pageC}`, in that key order. |
| Scenarios.ExampleLoyalty | loyal_customers.php:80-98 | For the two example maps, the report is the header followed by `cust1`. |
| Scenarios.ExampleText | loyal_customers.php:90-97 | The report lines `Loyal Customers ID:` and `cust1` print as `Loyal Customers ID:\ncust1\n`. |
| Scenarios.EmptyLogReport | loyal_customers.php:37-93 | An empty day-1 log, whatever day 2 holds, prints exactly `Loyal Customers ID:\nLoyal customers not available.\n`. |
| Scenarios.TwoDayExample | loyal_customers.php:60-98 | For the worked example's two-day logs, the report is the header followed by `cust1`, printed as `Loyal Customers ID:\ncust1\n`. |

## Left out

- Command-line handling (loyal_customers.php:9-16): the argument count check, the usage message and exit status 1 are not modelled. The two logs are parameters of `Report`.
- File access (loyal_customers.php:32-35, 39, 55): opening, `die` on a failed open, reading with `fgets`, and closing are not modelled. A log is the sequence of its lines, each possibly still carrying its terminator.
- Whitespace: the model uses one set, {space, tab, line feed, carriage return, vertical tab}. PHP's `trim` also strips NUL and does not strip form feed. PCRE's `\s` also matches form feed and does not match NUL. Lines holding NUL or form feed are therefore not modelled exactly.
- Strings: PHP lines are byte strings, while a Dafny `string` is a sequence of Unicode characters, so a line that is not valid UTF-8 cannot be represented. On valid UTF-8 the grouping and the splitting agree with the byte-level program, because no multi-byte character contains an ASCII whitespace byte.
- PHP turns a decimal-integer customer id used as an array key into an integer (lines 47-48, 52 and 81-82). This changes neither grouping nor the printed text, so the model keeps ids as strings.
- The timestamp field is kept in `Record` but, as in the program, never used.
- `Report` always uses the program's threshold, `DefaultThreshold` = 2. Only the filter (`FilterLoyal`, `LoyalCustomers`) takes the threshold as a parameter.
- Output is a sequence of lines, with `Text` ending each line with a newline. Writing to standard output is not modelled.
- Loyalty.Render: the "not available iff empty" half is stated only for ids that are non-empty and contain no whitespace. An id equal to the "not available" line itself would make the two outputs coincide. Parsed ids are always non-empty and whitespace-free (`ParseLogKeysAreTokens`).

=== FILE: daily_visits.dfy ===
/**
  The per-day aggregation: the accepted lines of one log, folded in file order into an
  insertion-ordered map from customer id to the set of distinct page ids that customer
  visited.
 */
module DailyVisits {
  import opened Wrappers
  import opened Seqs
  import opened LogLine

  /**
    An insertion-ordered map: `order` lists the customer ids in the order they were first
    seen, `pages` gives each one's set of distinct pages.
   */
  datatype VisitMap = VisitMap(order: seq<string>, pages: map<string, set<string>>) {

    /** Every key is listed exactly once in `order`, and `order` lists nothing else. */
    ghost predicate Valid() {
      && NoDuplicates(order)
      && (forall c :: c in order <==> c in pages)
    }
  }

  const Empty: VisitMap := VisitMap([], map[])

  /** The pages seen for `customer` so far; empty when the customer has not been seen. */
  function PagesOf(m: VisitMap, customer: string): set<string> {
    if customer in m.pages then m.pages[customer] else {}
  }

  /**
    Records that `customer` visited `page`: a customer seen for the first time is appended
    to the key order with an empty page set, then the page is added to the customer's set.
   */
  function Insert(m: VisitMap, customer: string, page: string): (r: VisitMap)
    ensures m.Valid() ==> r.Valid()
    ensures r.pages.Keys == m.pages.Keys + {customer}
    ensures PagesOf(r, customer) == PagesOf(m, customer) + {page}
    ensures forall c :: c != customer ==> PagesOf(r, c) == PagesOf(m, c)
    ensures customer in m.pages ==> r.order == m.order
    ensures customer !in m.pages ==> r.order == m.order + [customer]
  {
    var seen := if customer in m.pages then m else VisitMap(m.order + [customer], m.pages[customer := {}]);
    VisitMap(seen.order, seen.pages[customer := seen.pages[customer] + {page}])
  }

  /** Folds one raw line into the map; a line with fewer than three fields is skipped. */
  function ProcessLine(m: VisitMap, line: string): (r: VisitMap)
    ensures m.Valid() ==> r.Valid()
    ensures |Fields(line)| < 3 ==> r == m
  {
    match ParseLine(line)
    case None => m
    case Some(rec) => Insert(m, rec.customer, rec.page)
  }

  /** The map of a whole log: every line folded in, in file order, starting from the empty map. */
  function ParseLog(lines: seq<string>): (m: VisitMap)
    ensures m.Valid()
  {
    if lines == [] then Empty
    else ProcessLine(ParseLog(lines[..|lines| - 1]), lines[|lines| - 1])
  }

  // ----- Reference definitions -----

  /** The records of the lines that carry one, in file order. */
  function Accepted(lines: seq<string>): (recs: seq<Record>)
    ensures |recs| <= |lines|
    ensures forall l :: l in lines && ParseLine(l).Some? ==> ParseLine(l).value in recs
    ensures forall rec :: rec in recs ==> exists l :: l in lines && ParseLine(l) == Some(rec)
  {
    if lines == [] then []
    else
      var init := lines[..|lines| - 1];
      var last := lines[|lines| - 1];
      assert lines == init + [last];
      match ParseLine(last)
      case None => Accepted(init)
      case Some(rec) => Accepted(init) + [rec]
  }

  /** The customer field of each record, in order. */
  function CustomerSeq(recs: seq<Record>): (cs: seq<string>)
    ensures |cs| == |recs|
    ensures forall i :: 0 <= i < |recs| ==> cs[i] == recs[i].customer
  {
    seq(|recs|, i requires 0 <= i < |recs| => recs[i].customer)
  }

  /** The page fields of the records that belong to `customer`. */
  ghost function PagesFor(recs: seq<Record>, customer: string): set<string> {
    set rec | rec in recs && rec.customer == customer :: rec.page
  }

  // ----- Lemmas -----

  /** A pair already recorded leaves the map, including its key order, unchanged. */
  lemma InsertRecorded(m: VisitMap, customer: string, page: string)
    requires page in PagesOf(m, customer)
    ensures Insert(m, customer, page) == m
  {
    assert m.pages[customer] + {page} == m.pages[customer];
    assert m.pages[customer := m.pages[customer]] == m.pages;
  }

  /** Inserting the same pair twice is the same as inserting it once. */
  lemma InsertIdempotent(m: VisitMap, customer: string, page: string)
    ensures Insert(Insert(m, customer, page), customer, page) == Insert(m, customer, page)
  {
    InsertRecorded(Insert(m, customer, page), customer, page);
  }

  /** Unfolding the fold at its last line, for any split of the log. */
  lemma ParseLogSnoc(lines: seq<string>, line: string)
    ensures ParseLog(lines + [line]) == ProcessLine(ParseLog(lines), line)
    ensures Accepted(lines + [line]) == Accepted(lines) + (if ParseLine(line).Some? then [ParseLine(line).value] else [])
  {
    assert (lines + [line])[..|lines|] == lines;
  }

  lemma CustomerSeqSnoc(recs: seq<Record>, rec: Record)
    ensures CustomerSeq(recs + [rec]) == CustomerSeq(recs) + [rec.customer]
  {
  }

  lemma PagesForSnoc(recs: seq<Record>, rec: Record, customer: string)
    ensures PagesFor(recs + [rec], customer)
         == PagesFor(recs, customer) + (if rec.customer == customer then {rec.page} else {})
  {
    var extra := if rec.customer == customer then {rec.page} else {};
    forall p | p in PagesFor(recs + [rec], customer)
      ensures p in PagesFor(recs, customer) + extra
    {
      var r :| r in recs + [rec] && r.customer == customer && r.page == p;
      if r != rec {
        assert r in recs;
      }
    }
  }

  /** Inserting a record's pair keeps the map in agreement with the records seen so far. */
  lemma InsertAgreesWithRecords(m: VisitMap, recs: seq<Record>, rec: Record)
    requires forall c :: c in m.pages <==> c in CustomerSeq(recs)
    requires forall c :: PagesOf(m, c) == PagesFor(recs, c)
    ensures forall c :: c in Insert(m, rec.customer, rec.page).pages <==> c in CustomerSeq(recs + [rec])
    ensures forall c :: PagesOf(Insert(m, rec.customer, rec.page), c) == PagesFor(recs + [rec], c)
  {
    CustomerSeqSnoc(recs, rec);
    forall c ensures PagesOf(Insert(m, rec.customer, rec.page), c) == PagesFor(recs + [rec], c) {
      PagesForSnoc(recs, rec, c);
    }
  }

  /**
    The map's keys are exactly the customer fields of the accepted lines, and each
    customer's page set is exactly the page fields of that customer's accepted lines.
   */
  lemma {:induction false} ParseLogContents(lines: seq<string>)
    ensures forall c :: c in ParseLog(lines).pages <==> c in CustomerSeq(Accepted(lines))
    ensures forall c :: PagesOf(ParseLog(lines), c) == PagesFor(Accepted(lines), c)
    decreases |lines|
  {
    if lines != [] {
      var init := lines[..|lines| - 1];
      var last := lines[|lines| - 1];
      assert lines == init + [last];
      ParseLogContents(init);
      ParseLogSnoc(init, last);
      if ParseLine(last).Some? {
        InsertAgreesWithRecords(ParseLog(init), Accepted(init), ParseLine(last).value);
      }
    }
  }

  /**
    Inserting a pair keeps the key order in first-appearance order when the customer is
    appended to the sequence of customers seen so far.
   */
  lemma InsertKeepsFirstAppearanceOrder(m: VisitMap, cs: seq<string>, customer: string, page: string)
    requires forall c :: c in m.pages <==> c in cs
    requires m.Valid() && InOrderOf(m.order, cs)
    ensures InOrderOf(Insert(m, customer, page).order, cs + [customer])
  {
    if customer in m.pages {
      InOrderExtend(m.order, cs, [customer]);
    } else {
      InOrderAppendNew(m.order, cs, customer);
    }
  }

  /** One more line keeps the key order in first-appearance order. */
  lemma ParseLogOrderSnoc(init: seq<string>, last: string)
    requires InOrderOf(ParseLog(init).order, CustomerSeq(Accepted(init)))
    ensures InOrderOf(ParseLog(init + [last]).order, CustomerSeq(Accepted(init + [last])))
  {
    ParseLogContents(init);
    ParseLogSnoc(init, last);
    match ParseLine(last)
    case None =>
    case Some(rec) =>
      CustomerSeqSnoc(Accepted(init), rec);
      InsertKeepsFirstAppearanceOrder(ParseLog(init), CustomerSeq(Accepted(init)), rec.customer, rec.page);
  }

  /**
    The key order is the order in which customers first appear among the accepted lines:
    a customer already present is never moved, and a new one goes to the end.
   */
  lemma {:induction false} ParseLogOrder(lines: seq<string>)
    ensures InOrderOf(ParseLog(lines).order, CustomerSeq(Accepted(lines)))
    decreases |lines|
  {
    if lines != [] {
      var init := lines[..|lines| - 1];
      assert lines == init + [lines[|lines| - 1]];
      ParseLogOrder(init);
      ParseLogOrderSnoc(init, lines[|lines| - 1]);
    }
  }

  /**
    The key order is determined by the log: any listing of the same customers in
    first-appearance order is the map's key order.
   */
  lemma ParseLogOrderUnique(lines: seq<string>, s: seq<string>)
    requires forall c :: c in s <==> c in CustomerSeq(Accepted(lines))
    requires InOrderOf(s, CustomerSeq(Accepted(lines)))
    ensures s == ParseLog(lines).order
  {
    ParseLogContents(lines);
    ParseLogOrder(lines);
    InOrderUnique(s, ParseLog(lines).order, CustomerSeq(Accepted(lines)));
  }

  /** Every key of a parsed log is a token: non-empty and free of whitespace. */
  lemma ParseLogKeysAreTokens(lines: seq<string>)
    ensures forall c :: c in ParseLog(lines).pages ==> IsToken(c)
  {
    ParseLogContents(lines);
    forall c | c in ParseLog(lines).pages ensures IsToken(c) {
      var recs := Accepted(lines);
      var i := FirstIndex(CustomerSeq(recs), c);
      assert recs[i] in recs;
    }
  }

  /** Two logs with the same map keep the same map when one more line follows both. */
  lemma ParseLogStepCongruent(a: seq<string>, a': seq<string>, line: string)
    requires ParseLog(a) == ParseLog(a')
    ensures ParseLog(a + [line]) == ParseLog(a' + [line])
  {
    ParseLogSnoc(a, line);
    ParseLogSnoc(a', line);
  }

  lemma AppendSplitLast<T>(a: seq<T>, b: seq<T>)
    requires b != []
    ensures a + b == (a + b[..|b| - 1]) + [b[|b| - 1]]
  {
  }

  /** Two logs with the same map keep the same map when the same lines follow both. */
  lemma {:induction false} ParseLogExtend(a: seq<string>, a': seq<string>, b: seq<string>)
    requires ParseLog(a) == ParseLog(a')
    ensures ParseLog(a + b) == ParseLog(a' + b)
    decreases |b|
  {
    if b == [] {
      assert a + b == a && a' + b == a';
    } else {
      var init := b[..|b| - 1];
      ParseLogExtend(a, a', init);
      AppendSplitLast(a, b);
      AppendSplitLast(a', b);
      ParseLogStepCongruent(a + init, a' + init, b[|b| - 1]);
    }
  }

  /**
    A line with fewer than three fields (including an empty or blank line) has no effect
    anywhere in a log: the lines around it are processed as if it were absent.
   */
  lemma ShortLineIgnored(a: seq<string>, line: string, b: seq<string>)
    requires |Fields(line)| < 3
    ensures ParseLog(a + [line] + b) == ParseLog(a + b)
  {
    ParseLogSnoc(a, line);
    ParseLogExtend(a + [line], a, b);
  }

  /** A line repeating an earlier line leaves the map unchanged. */
  lemma RepeatedLineNoOp(a: seq<string>, line: string)
    requires line in a
    ensures ParseLog(a + [line]) == ParseLog(a)
  {
    ParseLogSnoc(a, line);
    match ParseLine(line)
    case None =>
    case Some(rec) =>
      ParseLogContents(a);
      assert rec in Accepted(a);
      assert rec.page in PagesFor(Accepted(a), rec.customer);
      InsertRecorded(ParseLog(a), rec.customer, rec.page);
  }

  /**
    A line repeating an earlier line has no effect anywhere in a log: page sets count
    distinct pages, and the key order is that of first appearance.
   */
  lemma RepeatedLineIgnored(a: seq<string>, line: string, b: seq<string>)
    requires line in a
    ensures ParseLog(a + [line] + b) == ParseLog(a + b)
  {
    RepeatedLineNoOp(a, line);
    ParseLogExtend(a + [line], a, b);
  }

  /** A log none of whose lines carries a record (empty, blank or short lines only) yields the empty map. */
  lemma {:induction false} ParseLogNoRecords(lines: seq<string>)
    requires forall i :: 0 <= i < |lines| ==> |Fields(lines[i])| < 3
    ensures ParseLog(lines) == Empty
    decreases |lines|
  {
    if lines != [] {
      var init := lines[..|lines| - 1];
      assert lines == init + [lines[|lines| - 1]];
      ParseLogNoRecords(init);
      ParseLogSnoc(init, lines[|lines| - 1]);
    }
  }
}

=== FILE: log_line.dfy ===
/**
  One line of a day's log: `<timestamp> <pageId> <customerId>`, fields separated by runs of
  whitespace. The line is trimmed, split on every run of whitespace, and kept only when at
  least three fields come out; fields after the third are ignored.
 */
module LogLine {
  import opened Wrappers

  /**
    The whitespace characters: space, tab, line feed, carriage return and vertical tab.
    These are the characters that both trimming and field splitting treat as blanks.
   */
  predicate IsSpace(c: char) {
    c == ' ' || c == '\t' || c == '\n' || c == '\r' || c == 11 as char
  }

  predicate NoSpace(s: string) {
    forall i :: 0 <= i < |s| ==> !IsSpace(s[i])
  }

  predicate AllSpace(s: string) {
    forall i :: 0 <= i < |s| ==> IsSpace(s[i])
  }

  /** A field as it appears in a well-formed line: non-empty and free of whitespace. */
  predicate IsToken(s: string) {
    s != [] && NoSpace(s)
  }

  /** The end of the whitespace run of `s` that starts at position `i`. */
  function SkipSpaces(s: string, i: nat): (j: nat)
    requires i <= |s|
    ensures i <= j <= |s|
    ensures j < |s| ==> !IsSpace(s[j])
    decreases |s| - i
  {
    if i == |s| || !IsSpace(s[i]) then i else SkipSpaces(s, i + 1)
  }

  /** The end of the whitespace-free run of `s` that starts at position `i`. */
  function SkipToken(s: string, i: nat): (j: nat)
    requires i <= |s|
    ensures i <= j <= |s|
    ensures j < |s| ==> IsSpace(s[j])
    decreases |s| - i
  {
    if i == |s| || IsSpace(s[i]) then i else SkipToken(s, i + 1)
  }

  /** The start of the whitespace run of `s` that ends just before position `j`. */
  function BackSpaces(s: string, j: nat): (i: nat)
    requires j <= |s|
    ensures i <= j
    ensures 0 < i ==> !IsSpace(s[i - 1])
  {
    if j == 0 || !IsSpace(s[j - 1]) then j else BackSpaces(s, j - 1)
  }

  /** Strips whitespace from both ends, as PHP's `trim` does. */
  function Trim(s: string): (r: string)
    ensures |r| <= |s|
    ensures r == [] <==> AllSpace(s)
    ensures r != [] ==> !IsSpace(r[0]) && !IsSpace(r[|r| - 1])
  {
    SkipSpacesBlank(s, 0);
    BackSpacesBlank(s, |s|);
    var lead := SkipSpaces(s, 0);
    if lead == |s| then [] else s[lead..BackSpaces(s, |s|)]
  }

  /**
    The pieces of `s` from position `i` on, cut at every maximal run of whitespace: the
    text up to the next run, then the pieces after that run.
   */
  function SplitFrom(s: string, i: nat): (fields: seq<string>)
    requires i <= |s|
    ensures |fields| >= 1
    decreases |s| - i
  {
    var e := SkipToken(s, i);
    if e == |s| then [s[i..]] else [s[i..e]] + SplitFrom(s, SkipSpaces(s, e))
  }

  /**
    Splits `s` at every maximal run of whitespace, as `preg_split('/\s+/', s)` does: the
    pieces are the text between runs, so a leading or trailing run yields an empty piece
    and the empty string yields one empty piece.
   */
  function SplitOnSpaceRuns(s: string): (fields: seq<string>)
    ensures |fields| >= 1
    ensures forall k :: 0 <= k < |fields| ==> NoSpace(fields[k])
  {
    SplitFromNoSpace(s, 0);
    SplitFrom(s, 0)
  }

  /**
    The fields of a raw line: trimmed, then split on whitespace runs. No field holds
    whitespace; a blank line has the single empty field, and any other line has only
    non-empty fields.
   */
  function Fields(line: string): (fields: seq<string>)
    ensures forall k :: 0 <= k < |fields| ==> NoSpace(fields[k])
    ensures AllSpace(line) ==> fields == [""]
    ensures !AllSpace(line) ==> AllTokens(fields)
  {
    var t := Trim(line);
    assert t != [] ==> AllTokens(SplitOnSpaceRuns(t)) by {
      if t != [] {
        SplitFromTokens(t, 0);
      }
    }
    SplitOnSpaceRuns(t)
  }

  /** The record a line carries; the timestamp is kept but never used downstream. */
  datatype Record = Record(timestamp: string, page: string, customer: string)

  /**
    The record of a line with at least three fields (the first three, in order);
    `None` for a shorter line, which is skipped.
   */
  function ParseLine(line: string): (r: Option<Record>)
    ensures r.None? <==> |Fields(line)| < 3
    ensures AllSpace(line) ==> r.None?
    ensures r.Some? ==> IsToken(r.value.timestamp) && IsToken(r.value.page) && IsToken(r.value.customer)
  {
    var fields := Fields(line);
    if |fields| < 3 then None else Some(Record(fields[0], fields[1], fields[2]))
  }

  /**
    Writes fields separated by single spaces, the usual shape of a log line. It is the
    single-space instance of `JoinWith` (`JoinWithSpaceIsJoinWith`); it and the lemmas
    about it (`SplitJoin`, `ParseJoinedLine`, `ParseFormattedLine`) are kept as
    corollaries of the general ones because they state the common case directly.
   */
  function JoinWithSpace(fields: seq<string>): string {
    if |fields| == 0 then ""
    else if |fields| == 1 then fields[0]
    else fields[0] + " " + JoinWithSpace(fields[1..])
  }

  /** The line a record with some trailing extra fields is written as. */
  function FormatLine(rec: Record, extra: seq<string>): string {
    JoinWithSpace([rec.timestamp, rec.page, rec.customer] + extra)
  }

  /**
    Writes fields with whitespace separators between them: `seps[k]` goes between
    `fields[k]` and `fields[k + 1]`.
   */
  function JoinWith(fields: seq<string>, seps: seq<string>): string {
    if |fields| == 0 then ""
    else if |fields| == 1 || |seps| == 0 then fields[0]
    else fields[0] + seps[0] + JoinWith(fields[1..], seps[1..])
  }

  /** Separators for `n` fields: `n - 1` non-empty runs of whitespace. */
  predicate Separators(seps: seq<string>, n: nat) {
    |seps| + 1 == n && forall k :: 0 <= k < |seps| ==> seps[k] != [] && AllSpace(seps[k])
  }

  /** The separators `JoinWithSpace` writes: `n` single spaces. */
  function SingleSpaces(n: nat): (seps: seq<string>)
    ensures |seps| == n && forall k :: 0 <= k < n ==> seps[k] == " "
  {
    seq(n, k => " ")
  }

  predicate AllTokens(fields: seq<string>) {
    forall k :: 0 <= k < |fields| ==> IsToken(fields[k])
  }

  // ----- Lemmas -----

  /** Everything `SkipSpaces` passes over is whitespace. */
  lemma {:induction false} SkipSpacesBlank(s: string, i: nat)
    requires i <= |s|
    ensures forall k :: i <= k < SkipSpaces(s, i) ==> IsSpace(s[k])
    decreases |s| - i
  {
    if i < |s| && IsSpace(s[i]) {
      SkipSpacesBlank(s, i + 1);
    }
  }

  /** Nothing `SkipToken` passes over is whitespace. */
  lemma {:induction false} SkipTokenSolid(s: string, i: nat)
    requires i <= |s|
    ensures forall k :: i <= k < SkipToken(s, i) ==> !IsSpace(s[k])
    decreases |s| - i
  {
    if i < |s| && !IsSpace(s[i]) {
      SkipTokenSolid(s, i + 1);
    }
  }

  /** Everything `BackSpaces` passes over is whitespace. */
  lemma {:induction false} BackSpacesBlank(s: string, j: nat)
    requires j <= |s|
    ensures forall k :: BackSpaces(s, j) <= k < j ==> IsSpace(s[k])
  {
    if 0 < j && IsSpace(s[j - 1]) {
      BackSpacesBlank(s, j - 1);
    }
  }

  /** `SkipSpaces` ends at the only position whose run is blank and which holds a non-blank or the end. */
  lemma SkipSpacesUnique(s: string, i: nat, j: nat)
    requires i <= j <= |s|
    requires forall k :: i <= k < j ==> IsSpace(s[k])
    requires j < |s| ==> !IsSpace(s[j])
    ensures SkipSpaces(s, i) == j
  {
    SkipSpacesBlank(s, i);
  }

  /** `SkipToken` ends at the only position whose run is free of blanks and which holds a blank or the end. */
  lemma SkipTokenUnique(s: string, i: nat, j: nat)
    requires i <= j <= |s|
    requires forall k :: i <= k < j ==> !IsSpace(s[k])
    requires j < |s| ==> IsSpace(s[j])
    ensures SkipToken(s, i) == j
  {
    SkipTokenSolid(s, i);
  }

  /** `BackSpaces` starts at the only position whose run is blank and which follows a non-blank or the start. */
  lemma BackSpacesUnique(s: string, i: nat, j: nat)
    requires i <= j <= |s|
    requires forall k :: i <= k < j ==> IsSpace(s[k])
    requires 0 < i ==> !IsSpace(s[i - 1])
    ensures BackSpaces(s, j) == i
  {
    BackSpacesBlank(s, j);
  }

  /** Padding a string whose ends are not whitespace with whitespace on both sides, then trimming, gives it back. */
  lemma TrimPadded(pre: string, s: string, post: string)
    requires AllSpace(pre) && AllSpace(post)
    requires s != [] ==> !IsSpace(s[0]) && !IsSpace(s[|s| - 1])
    ensures Trim(pre + s + post) == s
  {
    var t := pre + s + post;
    if s == [] {
      assert AllSpace(t) by {
        assert t == pre + post;
      }
    } else {
      var a, b := |pre|, |pre| + |s|;
      forall k | 0 <= k < a ensures IsSpace(t[k]) {
        assert t[k] == pre[k];
      }
      assert t[a] == s[0];
      SkipSpacesUnique(t, 0, a);
      forall k | b <= k < |t| ensures IsSpace(t[k]) {
        assert t[k] == post[k - b];
      }
      assert t[b - 1] == s[|s| - 1];
      BackSpacesUnique(t, b, |t|);
      assert t[a..b] == s;
    }
  }

  /** No piece of a split holds whitespace, whatever the string. */
  lemma {:induction false} SplitFromNoSpace(s: string, i: nat)
    requires i <= |s|
    ensures forall k :: 0 <= k < |SplitFrom(s, i)| ==> NoSpace(SplitFrom(s, i)[k])
    decreases |s| - i
  {
    var e := SkipToken(s, i);
    SkipTokenSolid(s, i);
    var first := if e == |s| then s[i..] else s[i..e];
    assert first == s[i..e];
    assert NoSpace(first) by {
      forall k | 0 <= k < |first| ensures !IsSpace(first[k]) {
        assert first[k] == s[i + k];
      }
    }
    if e < |s| {
      var j := SkipSpaces(s, e);
      SplitFromNoSpace(s, j);
      var fs := SplitFrom(s, i);
      assert fs == [first] + SplitFrom(s, j);
      forall k | 0 <= k < |fs| ensures NoSpace(fs[k]) {
        if k > 0 {
          assert fs[k] == SplitFrom(s, j)[k - 1];
        }
      }
    }
  }

  /** From a non-blank position, with `s` ending in a non-blank, every piece is a token. */
  lemma {:induction false} SplitFromTokens(s: string, i: nat)
    requires i < |s| && !IsSpace(s[i]) && !IsSpace(s[|s| - 1])
    ensures AllTokens(SplitFrom(s, i))
    decreases |s| - i
  {
    var e := SkipToken(s, i);
    SkipTokenSolid(s, i);
    var first := s[i..e];
    assert IsToken(first) by {
      forall k | 0 <= k < |first| ensures !IsSpace(first[k]) {
        assert first[k] == s[i + k];
      }
    }
    if e < |s| {
      var j := SkipSpaces(s, e);
      SkipSpacesBlank(s, e);
      assert j < |s| by {
        assert !IsSpace(s[|s| - 1]);
      }
      SplitFromTokens(s, j);
      var fs := SplitFrom(s, i);
      assert fs == [first] + SplitFrom(s, j);
      forall k | 0 <= k < |fs| ensures IsToken(fs[k]) {
        if k > 0 {
          assert fs[k] == SplitFrom(s, j)[k - 1];
        }
      }
    }
  }

  /** Tokens joined by whitespace separators form a string that neither starts nor ends with whitespace. */
  lemma {:induction false} JoinWithEnds(fields: seq<string>, seps: seq<string>)
    requires |fields| >= 1 && AllTokens(fields) && Separators(seps, |fields|)
    ensures JoinWith(fields, seps) != []
    ensures JoinWith(fields, seps)[0] == fields[0][0]
    ensures JoinWith(fields, seps)[|JoinWith(fields, seps)| - 1] == fields[|fields| - 1][|fields[|fields| - 1]| - 1]
    decreases |fields|
  {
    var f0 := fields[0];
    assert IsToken(f0);
    if |fields| > 1 {
      var tail, rest_seps := fields[1..], seps[1..];
      assert AllTokens(tail) by {
        forall k | 0 <= k < |tail| ensures IsToken(tail[k]) {
          assert tail[k] == fields[k + 1];
        }
      }
      assert Separators(rest_seps, |tail|) by {
        forall k | 0 <= k < |rest_seps| ensures rest_seps[k] != [] && AllSpace(rest_seps[k]) {
          assert rest_seps[k] == seps[k + 1];
        }
      }
      JoinWithEnds(tail, rest_seps);
      var rest := JoinWith(tail, rest_seps);
      var s := f0 + seps[0] + rest;
      assert JoinWith(fields, seps) == s;
      assert s[0] == f0[0];
      assert s[|s| - 1] == rest[|rest| - 1];
      assert tail[|tail| - 1] == fields[|fields| - 1];
    }
  }

  /** `s` holds a copy of `t` from position `d` to its end. */
  predicate EndsWithAt(s: string, t: string, d: nat) {
    d + |t| == |s| && forall k :: 0 <= k < |t| ==> s[d + k] == t[k]
  }

  /** Scanning past a token is the same in a copy of `t` at the end of `s`. */
  lemma SkipTokenShift(s: string, t: string, d: nat, i: nat)
    requires EndsWithAt(s, t, d) && i <= |t|
    ensures SkipToken(s, d + i) == d + SkipToken(t, i)
  {
    var e := SkipToken(t, i);
    SkipTokenSolid(t, i);
    forall k | d + i <= k < d + e ensures !IsSpace(s[k]) {
      assert s[d + (k - d)] == t[k - d];
    }
    if e < |t| {
      assert s[d + e] == t[e];
    }
    SkipTokenUnique(s, d + i, d + e);
  }

  /** Scanning past blanks is the same in a copy of `t` at the end of `s`. */
  lemma SkipSpacesShift(s: string, t: string, d: nat, i: nat)
    requires EndsWithAt(s, t, d) && i <= |t|
    ensures SkipSpaces(s, d + i) == d + SkipSpaces(t, i)
  {
    var j := SkipSpaces(t, i);
    SkipSpacesBlank(t, i);
    forall k | d + i <= k < d + j ensures IsSpace(s[k]) {
      assert s[d + (k - d)] == t[k - d];
    }
    if j < |t| {
      assert s[d + j] == t[j];
    }
    SkipSpacesUnique(s, d + i, d + j);
  }

  /** One step of the split: the token at `i`, then the pieces after the blank run that follows it. */
  lemma SplitFromStep(s: string, i: nat, e: nat, j: nat)
    requires i <= |s| && e == SkipToken(s, i) < |s| && j == SkipSpaces(s, e)
    ensures SplitFrom(s, i) == [s[i..e]] + SplitFrom(s, j)
  {
  }

  /** A slice of a copy of `t` at the end of `s` is the matching slice of `t`. */
  lemma SliceShift(s: string, t: string, d: nat, i: nat, e: nat)
    requires EndsWithAt(s, t, d) && i <= e <= |t|
    ensures s[d + i..d + e] == t[i..e]
  {
    forall k | 0 <= k < e - i ensures s[d + i..d + e][k] == t[i..e][k] {
      assert s[d + (i + k)] == t[i + k];
    }
  }

  /** The last piece is the same in a copy of `t` at the end of `s`. */
  lemma SplitFromShiftLast(s: string, t: string, d: nat, i: nat)
    requires EndsWithAt(s, t, d) && i <= |t| && SkipToken(t, i) == |t|
    ensures SplitFrom(s, d + i) == SplitFrom(t, i)
  {
    SkipTokenShift(s, t, d, i);
    SliceShift(s, t, d, i, |t|);
    assert s[d + i..] == s[d + i..d + |t|];
    assert t[i..] == t[i..|t|];
  }

  /** One step of the split is the same in a copy of `t` at the end of `s`. */
  lemma SplitFromShiftStep(s: string, t: string, d: nat, i: nat, e: nat, j: nat)
    requires EndsWithAt(s, t, d) && i <= |t|
    requires e == SkipToken(t, i) < |t| && j == SkipSpaces(t, e)
    requires SplitFrom(s, d + j) == SplitFrom(t, j)
    ensures SplitFrom(s, d + i) == SplitFrom(t, i)
  {
    SkipTokenShift(s, t, d, i);
    SkipSpacesShift(s, t, d, e);
    SliceShift(s, t, d, i, e);
    SplitFromStep(t, i, e, j);
    SplitFromStep(s, d + i, d + e, d + j);
  }

  /** Splitting is the same in a copy of `t` at the end of `s`. */
  lemma {:induction false} SplitFromShift(s: string, t: string, d: nat, i: nat)
    requires EndsWithAt(s, t, d) && i <= |t|
    ensures SplitFrom(s, d + i) == SplitFrom(t, i)
    decreases |t| - i
  {
    var e := SkipToken(t, i);
    if e < |t| {
      var j := SkipSpaces(t, e);
      SplitFromShift(s, t, d, j);
      SplitFromShiftStep(s, t, d, i, e, j);
    } else {
      SplitFromShiftLast(s, t, d, i);
    }
  }

  /** A string whose first run of whitespace is `s[n..m]` splits at that run. */
  lemma SplitAtRun(s: string, n: nat, m: nat)
    requires 0 < n < m < |s|
    requires forall k :: 0 <= k < n ==> !IsSpace(s[k])
    requires forall k :: n <= k < m ==> IsSpace(s[k])
    requires !IsSpace(s[m])
    ensures SplitFrom(s, 0) == [s[..n]] + SplitFrom(s, m)
  {
    SkipTokenUnique(s, 0, n);
    SkipSpacesUnique(s, n, m);
    SplitFromStep(s, 0, n, m);
  }

  /** As `SplitAtRun`, when the text after the run is a copy of `t`. */
  lemma SplitBeforeCopy(s: string, t: string, n: nat, m: nat)
    requires 0 < n < m < |s|
    requires forall k :: 0 <= k < n ==> !IsSpace(s[k])
    requires forall k :: n <= k < m ==> IsSpace(s[k])
    requires !IsSpace(s[m])
    requires EndsWithAt(s, t, m)
    ensures SplitFrom(s, 0) == [s[..n]] + SplitFrom(t, 0)
  {
    SplitAtRun(s, n, m);
    SplitFromShift(s, t, m, 0);
  }

  /** Where the pieces of a token, a whitespace run and further text sit in their concatenation. */
  lemma TokenRunLayout(f0: string, sep: string, rest: string)
    requires IsToken(f0)
    requires sep != [] && AllSpace(sep)
    requires rest != [] && !IsSpace(rest[0])
    ensures forall k :: 0 <= k < |f0| ==> !IsSpace((f0 + sep + rest)[k])
    ensures forall k :: |f0| <= k < |f0| + |sep| ==> IsSpace((f0 + sep + rest)[k])
    ensures !IsSpace((f0 + sep + rest)[|f0| + |sep|])
    ensures EndsWithAt(f0 + sep + rest, rest, |f0| + |sep|)
    ensures (f0 + sep + rest)[..|f0|] == f0
  {
    var s := f0 + sep + rest;
    var n, m := |f0|, |f0| + |sep|;
    forall k | 0 <= k < n ensures !IsSpace(s[k]) {
      assert s[k] == f0[k];
    }
    forall k | n <= k < m ensures IsSpace(s[k]) {
      assert s[k] == sep[k - n];
    }
    assert s[m] == rest[0];
    forall k | 0 <= k < |rest| ensures s[m + k] == rest[k] {
    }
  }

  /**
    A token, a run of whitespace, then text starting with a non-blank splits into the
    token and that text's fields.
   */
  lemma SplitAfterSep(f0: string, sep: string, rest: string)
    requires IsToken(f0)
    requires sep != [] && AllSpace(sep)
    requires rest != [] && !IsSpace(rest[0])
    ensures SplitOnSpaceRuns(f0 + sep + rest) == [f0] + SplitOnSpaceRuns(rest)
  {
    TokenRunLayout(f0, sep, rest);
    SplitBeforeCopy(f0 + sep + rest, rest, |f0|, |f0| + |sep|);
  }

  /** A token is a single field. */
  lemma SplitToken(f: string)
    requires IsToken(f)
    ensures SplitOnSpaceRuns(f) == [f]
  {
    SkipTokenUnique(f, 0, |f|);
    assert f[0..] == f;
  }

  /** Splitting tokens joined by whitespace separators gives the tokens back. */
  lemma {:induction false} SplitJoinWith(fields: seq<string>, seps: seq<string>)
    requires |fields| >= 1 && AllTokens(fields) && Separators(seps, |fields|)
    ensures SplitOnSpaceRuns(JoinWith(fields, seps)) == fields
    decreases |fields|
  {
    assert IsToken(fields[0]);
    if |fields| == 1 {
      SplitToken(fields[0]);
    } else {
      var tail, rest_seps := fields[1..], seps[1..];
      assert AllTokens(tail) by {
        forall k | 0 <= k < |tail| ensures IsToken(tail[k]) {
          assert tail[k] == fields[k + 1];
        }
      }
      assert Separators(rest_seps, |tail|) by {
        forall k | 0 <= k < |rest_seps| ensures rest_seps[k] != [] && AllSpace(rest_seps[k]) {
          assert rest_seps[k] == seps[k + 1];
        }
      }
      JoinWithEnds(tail, rest_seps);
      assert JoinWith(fields, seps) == fields[0] + seps[0] + JoinWith(tail, rest_seps);
      SplitAfterSep(fields[0], seps[0], JoinWith(tail, rest_seps));
      SplitJoinWith(tail, rest_seps);
      assert fields == [fields[0]] + tail;
    }
  }

  /** Joining with single spaces is joining with single-space separators. */
  lemma {:induction false} JoinWithSpaceIsJoinWith(fields: seq<string>)
    requires |fields| >= 1
    ensures JoinWithSpace(fields) == JoinWith(fields, SingleSpaces(|fields| - 1))
    decreases |fields|
  {
    if |fields| > 1 {
      var spaces := SingleSpaces(|fields| - 1);
      assert spaces[1..] == SingleSpaces(|fields| - 2);
      JoinWithSpaceIsJoinWith(fields[1..]);
    }
  }

  /** Single spaces are valid separators. */
  lemma SingleSpacesSeparate(n: nat)
    requires n >= 1
    ensures Separators(SingleSpaces(n - 1), n)
  {
    assert AllSpace(" ");
  }

  /** Splitting tokens joined by single spaces gives the tokens back. */
  lemma SplitJoin(fields: seq<string>)
    requires |fields| >= 1 && AllTokens(fields)
    ensures SplitOnSpaceRuns(JoinWithSpace(fields)) == fields
  {
    JoinWithSpaceIsJoinWith(fields);
    SingleSpacesSeparate(|fields|);
    SplitJoinWith(fields, SingleSpaces(|fields| - 1));
  }

  /**
    A line of at least three tokens separated by any runs of whitespace, with any
    whitespace around it (such as the line terminator), carries its first three fields.
   */
  lemma ParseSeparatedLine(fields: seq<string>, seps: seq<string>, pre: string, post: string)
    requires |fields| >= 3 && AllTokens(fields) && Separators(seps, |fields|)
    requires AllSpace(pre) && AllSpace(post)
    ensures ParseLine(pre + JoinWith(fields, seps) + post) == Some(Record(fields[0], fields[1], fields[2]))
  {
    JoinWithEnds(fields, seps);
    TrimPadded(pre, JoinWith(fields, seps), post);
    SplitJoinWith(fields, seps);
  }

  /** A line of at least three tokens separated by single spaces carries its first three. */
  lemma ParseJoinedLine(fields: seq<string>)
    requires |fields| >= 3 && AllTokens(fields)
    ensures ParseLine(JoinWithSpace(fields)) == Some(Record(fields[0], fields[1], fields[2]))
  {
    var seps := SingleSpaces(|fields| - 1);
    assert JoinWithSpace(fields) == "" + JoinWith(fields, seps) + "" by {
      JoinWithSpaceIsJoinWith(fields);
    }
    SingleSpacesSeparate(|fields|);
    ParseSeparatedLine(fields, seps, "", "");
  }

  /**
    Round trip: a line written from a record of tokens, with any further token fields and
    any surrounding whitespace (such as the line terminator), parses back to that record.
   */
  lemma ParseFormattedLine(rec: Record, extra: seq<string>, pre: string, post: string)
    requires IsToken(rec.timestamp) && IsToken(rec.page) && IsToken(rec.customer)
    requires AllTokens(extra)
    requires AllSpace(pre) && AllSpace(post)
    ensures ParseLine(pre + FormatLine(rec, extra) + post) == Some(rec)
  {
    var fields := [rec.timestamp, rec.page, rec.customer] + extra;
    assert AllTokens(fields) by {
      forall k | 0 <= k < |fields| ensures IsToken(fields[k]) {
        if k >= 3 {
          assert fields[k] == extra[k - 3];
        }
      }
    }
    JoinWithSpaceIsJoinWith(fields);
    SingleSpacesSeparate(|fields|);
    ParseSeparatedLine(fields, SingleSpaces(|fields| - 1), pre, post);
  }

  /** A line that is empty or whitespace only carries no record. */
  lemma BlankLineCarriesNoRecord(line: string)
    requires AllSpace(line)
    ensures Fields(line) == [""]
    ensures ParseLine(line) == None
  {
  }
}

=== FILE: loyalty.dfy ===
/**
  The loyalty filter and the report: walk day 1's customers in key order, keep those that
  are also day-2 customers with at least `threshold` distinct pages on both days, and
  print the header followed by the kept ids or the "not available" line.
 */
module Loyalty {
  import opened Wrappers
  import opened Seqs
  import opened LogLine
  import opened DailyVisits

  /** The minimum number of distinct pages per day that the report uses. */
  const DefaultThreshold: nat := 2

  const Header: string := "Loyal Customers ID:"
  const NotAvailable: string := "Loyal customers not available."

  /** `customer` is seen on both days with at least `threshold` distinct pages on each. */
  predicate IsLoyal(day1: VisitMap, day2: VisitMap, customer: string, threshold: nat) {
    && customer in day1.pages
    && customer in day2.pages
    && |day1.pages[customer]| >= threshold
    && |day2.pages[customer]| >= threshold
  }

  /** The loyal customers among `keys`, in the order of `keys`. */
  function FilterLoyal(keys: seq<string>, day1: VisitMap, day2: VisitMap, threshold: nat): (r: seq<string>)
    ensures forall c :: c in r <==> c in keys && IsLoyal(day1, day2, c, threshold)
    ensures NoDuplicates(keys) ==> InOrderOf(r, keys)
  {
    if keys == [] then []
    else
      var init := keys[..|keys| - 1];
      var c := keys[|keys| - 1];
      var r0 := FilterLoyal(init, day1, day2, threshold);
      var r := if IsLoyal(day1, day2, c, threshold) then r0 + [c] else r0;
      assert keys == init + [c];
      FilterStepInOrder(r0, init, c, r);
      r
  }

  /** Customers of `day1`, in its key order, who are loyal over the two days. */
  function LoyalCustomers(day1: VisitMap, day2: VisitMap, threshold: nat): (r: seq<string>)
    ensures day1.Valid() ==> forall c :: c in r <==> IsLoyal(day1, day2, c, threshold)
    ensures day1.Valid() ==> InOrderOf(r, day1.order) && NoDuplicates(r)
  {
    var r := FilterLoyal(day1.order, day1, day2, threshold);
    InOrderHasNoDuplicates(r, day1.order);
    r
  }

  /** The report's lines: the header, then the loyal ids or the "not available" line. */
  function Render(loyal: seq<string>): (out: seq<string>)
    ensures |out| >= 2 && out[0] == Header
    ensures (forall i :: 0 <= i < |loyal| ==> IsToken(loyal[i])) ==> (NotAvailable in out <==> loyal == [])
  {
    assert IsSpace(NotAvailable[5]);
    [Header] + (if loyal == [] then [NotAvailable] else loyal)
  }

  /** Reads a rendered report back into the list of ids it announces. */
  function ReadReport(out: seq<string>): Option<seq<string>> {
    if |out| < 2 || out[0] != Header then None
    else if out[1..] == [NotAvailable] then Some([])
    else Some(out[1..])
  }

  /** The printed text: every line followed by a newline. */
  function Text(out: seq<string>): (t: string)
    ensures t == [] <==> out == []
    ensures out != [] ==> |t| > |out[0]| && t[..|out[0]| + 1] == out[0] + "\n" && t[|t| - 1] == '\n'
  {
    if out == [] then "" else out[0] + "\n" + Text(out[1..])
  }

  /**
    The whole program on two already-read logs, given as their lines: the report starts
    with the header and lists exactly the loyal customers of the two parsed maps, in
    day 1's key order.
   */
  function Report(day1Lines: seq<string>, day2Lines: seq<string>): (out: seq<string>)
    ensures |out| >= 2 && out[0] == Header
    ensures ReadReport(out).Some?
    ensures forall c :: c in ReadReport(out).value <==> IsLoyal(ParseLog(day1Lines), ParseLog(day2Lines), c, DefaultThreshold)
    ensures InOrderOf(ReadReport(out).value, ParseLog(day1Lines).order)
  {
    ParseLogKeysAreTokens(day1Lines);
    ReportOf(ParseLog(day1Lines), ParseLog(day2Lines))
  }

  /**
    The report for two days' maps, at the default threshold. When day 1's keys are ids
    without whitespace, reading it back gives exactly the loyal customers, in day 1's
    key order.
   */
  function ReportOf(day1: VisitMap, day2: VisitMap): (out: seq<string>)
    ensures |out| >= 2 && out[0] == Header
    ensures day1.Valid() && (forall c :: c in day1.pages ==> IsToken(c)) ==>
      && ReadReport(out).Some?
      && (forall c :: c in ReadReport(out).value <==> IsLoyal(day1, day2, c, DefaultThreshold))
      && InOrderOf(ReadReport(out).value, day1.order)
  {
    var loyal := LoyalCustomers(day1, day2, DefaultThreshold);
    assert day1.Valid() && (forall c :: c in day1.pages ==> IsToken(c)) ==> ReadReport(Render(loyal)) == Some(loyal) by {
      if day1.Valid() && (forall c :: c in day1.pages ==> IsToken(c)) {
        forall i | 0 <= i < |loyal| ensures IsToken(loyal[i]) {
          assert loyal[i] in loyal;
        }
        RenderRoundTrip(loyal);
      }
    }
    Render(loyal)
  }

  /**
    A customer loyal according to the logs themselves: at least `DefaultThreshold`
    distinct pages among its accepted lines of each day.
   */
  ghost predicate LoyalInLogs(day1Lines: seq<string>, day2Lines: seq<string>, customer: string) {
    LoyalInRecords(Accepted(day1Lines), Accepted(day2Lines), customer)
  }

  ghost predicate LoyalInRecords(day1Recs: seq<Record>, day2Recs: seq<Record>, customer: string) {
    && |PagesFor(day1Recs, customer)| >= DefaultThreshold
    && |PagesFor(day2Recs, customer)| >= DefaultThreshold
  }

  // ----- Lemmas -----

  lemma FilterStepInOrder(r0: seq<string>, init: seq<string>, c: string, r: seq<string>)
    requires forall x :: x in r0 ==> x in init
    requires r == r0 + [c] || r == r0
    requires NoDuplicates(init) ==> InOrderOf(r0, init)
    ensures NoDuplicates(init + [c]) ==> InOrderOf(r, init + [c])
  {
    if NoDuplicates(init + [c]) {
      assert NoDuplicates(init) by {
        forall i, j | 0 <= i < j < |init| ensures init[i] != init[j] {
          assert (init + [c])[i] == init[i] && (init + [c])[j] == init[j];
        }
      }
      forall k | 0 <= k < |init| ensures init[k] != c {
        assert (init + [c])[k] == init[k] && (init + [c])[|init|] == c;
      }
      if r == r0 + [c] {
        InOrderAppendNew(r0, init, c);
      } else {
        InOrderExtend(r0, init, [c]);
      }
    }
  }

  /**
    The loyalty result is determined by its contract: any listing of exactly the loyal
    customers in day 1's key order is the result.
   */
  lemma LoyalCustomersUnique(day1: VisitMap, day2: VisitMap, threshold: nat, s: seq<string>)
    requires day1.Valid()
    requires forall c :: c in s <==> IsLoyal(day1, day2, c, threshold)
    requires InOrderOf(s, day1.order)
    ensures s == LoyalCustomers(day1, day2, threshold)
  {
    InOrderUnique(s, LoyalCustomers(day1, day2, threshold), day1.order);
  }

  /** The threshold is inclusive: exactly two distinct pages on each day qualifies. */
  lemma ExactlyTwoPagesQualify(day1: VisitMap, day2: VisitMap, customer: string)
    requires day1.Valid()
    requires |PagesOf(day1, customer)| == 2 && |PagesOf(day2, customer)| == 2
    ensures customer in LoyalCustomers(day1, day2, DefaultThreshold)
  {
  }

  /** One distinct page on either day disqualifies, whatever the other day holds. */
  lemma OnePageDisqualifies(day1: VisitMap, day2: VisitMap, customer: string)
    requires day1.Valid()
    requires |PagesOf(day1, customer)| <= 1 || |PagesOf(day2, customer)| <= 1
    ensures customer !in LoyalCustomers(day1, day2, DefaultThreshold)
  {
  }

  /** A customer absent from day 1 never appears, however many pages it has on day 2. */
  lemma DayTwoOnlyNeverListed(day1: VisitMap, day2: VisitMap, threshold: nat, customer: string)
    requires day1.Valid()
    requires customer !in day1.pages
    ensures customer !in LoyalCustomers(day1, day2, threshold)
  {
  }

  /** Reading a rendered report gives back the ids, provided they are tokens as parsed ids are. */
  lemma RenderRoundTrip(loyal: seq<string>)
    requires forall i :: 0 <= i < |loyal| ==> IsToken(loyal[i])
    ensures ReadReport(Render(loyal)) == Some(loyal)
  {
    if loyal != [] && loyal == [NotAvailable] {
      assert IsToken(loyal[0]);
      assert IsSpace(NotAvailable[5]);
    }
  }

  /** Rendering what a report reads back as gives the report again. */
  lemma ReadReportRoundTrip(out: seq<string>)
    requires ReadReport(out).Some?
    ensures Render(ReadReport(out).value) == out
  {
    assert out == [out[0]] + out[1..];
  }

  /**
    The report for two maps that agree with two days' records: it lists exactly the
    customers loyal by those records, in order of first appearance in day 1's records.
   */
  lemma ReportOfCorrect(day1: VisitMap, day2: VisitMap, recs1: seq<Record>, recs2: seq<Record>)
    requires day1.Valid()
    requires forall c :: PagesOf(day1, c) == PagesFor(recs1, c)
    requires forall c :: PagesOf(day2, c) == PagesFor(recs2, c)
    requires forall c :: c in day1.pages ==> IsToken(c)
    requires InOrderOf(day1.order, CustomerSeq(recs1))
    ensures ReadReport(ReportOf(day1, day2)).Some?
    ensures forall c :: c in ReadReport(ReportOf(day1, day2)).value <==> LoyalInRecords(recs1, recs2, c)
    ensures InOrderOf(ReadReport(ReportOf(day1, day2)).value, CustomerSeq(recs1))
    ensures NotAvailable in ReportOf(day1, day2) <==> forall c :: !LoyalInRecords(recs1, recs2, c)
  {
    var loyal := LoyalCustomers(day1, day2, DefaultThreshold);
    forall c ensures IsLoyal(day1, day2, c, DefaultThreshold) <==> LoyalInRecords(recs1, recs2, c) {
      assert PagesOf(day1, c) == PagesFor(recs1, c);
      assert PagesOf(day2, c) == PagesFor(recs2, c);
    }
    assert forall i :: 0 <= i < |loyal| ==> IsToken(loyal[i]) by {
      forall i | 0 <= i < |loyal| ensures IsToken(loyal[i]) {
        assert loyal[i] in loyal;
      }
    }
    RenderRoundTrip(loyal);
    InOrderTransitive(loyal, day1.order, CustomerSeq(recs1));
    if loyal != [] {
      assert LoyalInRecords(recs1, recs2, loyal[0]);
    }
  }

  /**
    The report, end to end: it starts with the header, and the ids it lists are exactly
    the customers with at least two distinct pages on each day, each once, in the order
    in which they first appear in day 1's log; the "not available" line is printed
    exactly when there are none.
   */
  lemma ReportCorrect(day1Lines: seq<string>, day2Lines: seq<string>)
    ensures Report(day1Lines, day2Lines)[0] == Header
    ensures ReadReport(Report(day1Lines, day2Lines)).Some?
    ensures forall c :: c in ReadReport(Report(day1Lines, day2Lines)).value <==> LoyalInLogs(day1Lines, day2Lines, c)
    ensures InOrderOf(ReadReport(Report(day1Lines, day2Lines)).value, CustomerSeq(Accepted(day1Lines)))
    ensures NotAvailable in Report(day1Lines, day2Lines) <==> forall c :: !LoyalInLogs(day1Lines, day2Lines, c)
  {
    ParseLogContents(day1Lines);
    ParseLogContents(day2Lines);
    ParseLogOrder(day1Lines);
    ParseLogKeysAreTokens(day1Lines);
    ReportOfCorrect(ParseLog(day1Lines), ParseLog(day2Lines), Accepted(day1Lines), Accepted(day2Lines));
  }

  /** With one day's map empty, nobody qualifies and the report says so. */
  lemma EmptyDayReport(day1: VisitMap, day2: VisitMap)
    requires day1.Valid()
    requires day1 == Empty || day2 == Empty
    ensures ReportOf(day1, day2) == [Header, NotAvailable]
  {
    LoyalCustomersUnique(day1, day2, DefaultThreshold, []);
    assert [Header] + [NotAvailable] == [Header, NotAvailable];
  }

  lemma NoneAvailableText()
    ensures Text([Header, NotAvailable]) == Header + "\n" + NotAvailable + "\n"
  {
    calc {
      Text([Header, NotAvailable]);
      { assert [Header, NotAvailable][1..] == [NotAvailable]; }
      Header + "\n" + Text([NotAvailable]);
      { assert [NotAvailable][1..] == []; }
      Header + "\n" + NotAvailable + "\n";
    }
  }

  /** One line is printed as itself followed by a newline; with `TextAppend` this fixes `Text` on every input. */
  lemma TextLine(line: string)
    ensures Text([line]) == line + "\n"
  {
    assert [line][1..] == [];
  }

  /** A report that lists ids prints the header line, then each id on its own line. */
  lemma {:induction false} ListedReportText(loyal: seq<string>)
    requires loyal != []
    ensures Text(Render(loyal)) == Header + "\n" + Text(loyal)
  {
    TextAppend([Header], loyal);
    TextLine(Header);
  }

  /** Printing two reports' lines one after the other prints the two texts one after the other. */
  lemma {:induction false} TextAppend(a: seq<string>, b: seq<string>)
    ensures Text(a + b) == Text(a) + Text(b)
    decreases |a|
  {
    if a != [] {
      assert (a + b)[1..] == a[1..] + b;
      TextAppend(a[1..], b);
    } else {
      assert a + b == b;
    }
  }

  /** With no record in either log (empty, blank or short lines only), the report says none is available. */
  lemma NoRecordsReport(day1Lines: seq<string>, day2Lines: seq<string>)
    requires (forall i :: 0 <= i < |day1Lines| ==> |Fields(day1Lines[i])| < 3)
          || (forall i :: 0 <= i < |day2Lines| ==> |Fields(day2Lines[i])| < 3)
    ensures Text(Report(day1Lines, day2Lines)) == Header + "\n" + NotAvailable + "\n"
  {
    if forall i :: 0 <= i < |day1Lines| ==> |Fields(day1Lines[i])| < 3 {
      ParseLogNoRecords(day1Lines);
    } else {
      ParseLogNoRecords(day2Lines);
    }
    EmptyDayReport(ParseLog(day1Lines), ParseLog(day2Lines));
    NoneAvailableText();
  }
}

=== FILE: scenarios.dfy ===
/** Worked examples: two concrete pairs of logs and the reports they produce. */
module Scenarios {
  import opened Wrappers
  import opened LogLine
  import opened DailyVisits
  import opened Loyalty

  lemma JoinThree(timestamp: string, page: string, customer: string)
    ensures JoinWithSpace([timestamp, page, customer]) == timestamp + " " + page + " " + customer
  {
    assert [timestamp, page, customer][1..] == [page, customer];
    assert [page, customer][1..] == [customer];
    assert JoinWithSpace([customer]) == customer;
    assert JoinWithSpace([page, customer]) == page + " " + customer;
  }

  /** A line of exactly three token fields separated by single spaces carries those fields. */
  lemma ThreeFieldLine(timestamp: string, page: string, customer: string)
    requires IsToken(timestamp) && IsToken(page) && IsToken(customer)
    ensures ParseLine(timestamp + " " + page + " " + customer) == Some(Record(timestamp, page, customer))
  {
    var fields := [timestamp, page, customer];
    assert AllTokens(fields);
    JoinThree(timestamp, page, customer);
    ParseJoinedLine(fields);
  }

  /**
    A line of three token fields separated by any runs of whitespace, and ended by any
    whitespace, carries those fields.
   */
  lemma MixedSeparatorLine(timestamp: string, sep1: string, page: string, sep2: string, customer: string, post: string)
    requires IsToken(timestamp) && IsToken(page) && IsToken(customer)
    requires sep1 != [] && AllSpace(sep1) && sep2 != [] && AllSpace(sep2) && AllSpace(post)
    ensures ParseLine(timestamp + sep1 + page + sep2 + customer + post) == Some(Record(timestamp, page, customer))
  {
    var fields, seps := [timestamp, page, customer], [sep1, sep2];
    var line := timestamp + sep1 + page + sep2 + customer;
    assert JoinWith(fields, seps) == line by {
      assert fields[1..][1..] == [customer];
      assert JoinWith([customer], seps[1..][1..]) == customer;
    }
    assert line + post == "" + JoinWith(fields, seps) + post;
    assert AllTokens(fields) && Separators(seps, 3);
    ParseSeparatedLine(fields, seps, "", post);
  }

  /** A tab and a double space between the fields, and the kept line feed, change nothing. */
  lemma TabSeparatedLine()
    ensures ParseLine("10:00\tpageA  cust1\n") == Some(Record("10:00", "pageA", "cust1"))
  {
    assert "10:00\tpageA  cust1\n" == "10:00" + "\t" + "pageA" + "  " + "cust1" + "\n";
    MixedSeparatorLine("10:00", "\t", "pageA", "  ", "cust1", "\n");
  }

  /** The map of a three-line log, line by line. */
  lemma ParseThreeLines(a: string, b: string, c: string)
    ensures ParseLog([a, b, c]) == ProcessLine(ProcessLine(ProcessLine(Empty, a), b), c)
  {
    assert [a, b, c] == [a, b] + [c] && [a, b] == [a] + [b] && [a] == [] + [a];
    ParseLogSnoc([], a);
    ParseLogSnoc([a], b);
    ParseLogSnoc([a, b], c);
  }

  /** An accepted line inserts its own customer and page. */
  lemma ProcessAcceptedLine(m: VisitMap, line: string)
    requires ParseLine(line).Some?
    ensures ProcessLine(m, line) == Insert(m, ParseLine(line).value.customer, ParseLine(line).value.page)
  {
  }

  lemma FirstVisit(c1: string, p1: string)
    ensures Insert(Empty, c1, p1) == VisitMap([c1], map[c1 := {p1}])
  {
    assert [] + [c1] == [c1];
    assert {} + {p1} == {p1};
    assert map[][c1 := {}][c1 := {} + {p1}] == map[c1 := {p1}];
  }

  lemma SecondPage(c1: string, p1: string, p2: string)
    ensures Insert(VisitMap([c1], map[c1 := {p1}]), c1, p2) == VisitMap([c1], map[c1 := {p1, p2}])
  {
    assert {p1} + {p2} == {p1, p2};
    assert map[c1 := {p1}][c1 := {p1} + {p2}] == map[c1 := {p1, p2}];
  }

  lemma SecondCustomer(c1: string, c2: string, p1: string, p2: string)
    requires c1 != c2
    ensures Insert(VisitMap([c1], map[c1 := {p1, p2}]), c2, p1)
         == VisitMap([c1, c2], map[c1 := {p1, p2}, c2 := {p1}])
  {
    assert [c1] + [c2] == [c1, c2];
    assert {} + {p1} == {p1};
    assert map[c1 := {p1, p2}][c2 := {}][c2 := {} + {p1}] == map[c1 := {p1, p2}, c2 := {p1}];
  }

  /**
    The map of a log whose first two lines are one customer's visits to two pages and
    whose third line is another customer's visit to the first of those pages.
   */
  lemma ExampleDay(l1: string, l2: string, l3: string, c1: string, c2: string, p1: string, p2: string)
    requires ParseLine(l1).Some? && ParseLine(l1).value.customer == c1 && ParseLine(l1).value.page == p1
    requires ParseLine(l2).Some? && ParseLine(l2).value.customer == c1 && ParseLine(l2).value.page == p2
    requires ParseLine(l3).Some? && ParseLine(l3).value.customer == c2 && ParseLine(l3).value.page == p1
    requires c1 != c2
    ensures ParseLog([l1, l2, l3]) == VisitMap([c1, c2], map[c1 := {p1, p2}, c2 := {p1}])
  {
    ParseThreeLines(l1, l2, l3);
    var m1 := VisitMap([c1], map[c1 := {p1}]);
    var m2 := VisitMap([c1], map[c1 := {p1, p2}]);
    ProcessAcceptedLine(Empty, l1);
    FirstVisit(c1, p1);
    ProcessAcceptedLine(m1, l2);
    SecondPage(c1, p1, p2);
    ProcessAcceptedLine(m2, l3);
    SecondCustomer(c1, c2, p1, p2);
  }

  /**
    A day's log of three single-spaced lines: `c1` visits `p1` and then `p2`, then `c2`
    visits `p1`.
   */
  lemma ExampleLog(t1: string, t2: string, t3: string, c1: string, c2: string, p1: string, p2: string)
    requires IsToken(t1) && IsToken(t2) && IsToken(t3)
    requires IsToken(c1) && IsToken(c2) && IsToken(p1) && IsToken(p2)
    requires c1 != c2
    ensures ParseLog([t1 + " " + p1 + " " + c1, t2 + " " + p2 + " " + c1, t3 + " " + p1 + " " + c2])
         == VisitMap([c1, c2], map[c1 := {p1, p2}, c2 := {p1}])
  {
    ThreeFieldLine(t1, p1, c1);
    ThreeFieldLine(t2, p2, c1);
    ThreeFieldLine(t3, p1, c2);
    ExampleDay(t1 + " " + p1 + " " + c1, t2 + " " + p2 + " " + c1, t3 + " " + p1 + " " + c2, c1, c2, p1, p2);
  }

  /** Day 1 of the example: `cust1` visits `pageA` and `pageB`, `cust2` visits `pageA`. */
  lemma ExampleDayOne()
    ensures ParseLog(["10:00 pageA cust1", "10:01 pageB cust1", "10:02 pageA cust2"])
         == VisitMap(["cust1", "cust2"], map["cust1" := {"pageA", "pageB"}, "cust2" := {"pageA"}])
  {
    assert "10:00 pageA cust1" == "10:00" + " " + "pageA" + " " + "cust1";
    assert "10:01 pageB cust1" == "10:01" + " " + "pageB" + " " + "cust1";
    assert "10:02 pageA cust2" == "10:02" + " " + "pageA" + " " + "cust2";
    assert ["10:00 pageA cust1", "10:01 pageB cust1", "10:02 pageA cust2"]
        == ["10:00" + " " + "pageA" + " " + "cust1", "10:01" + " " + "pageB" + " " + "cust1", "10:02" + " " + "pageA" + " " + "cust2"];
    ExampleLog("10:00", "10:01", "10:02", "cust1", "cust2", "pageA", "pageB");
  }

  /** Day 2 of the example: `cust1` visits `pageC` and `pageD`, `cust2` visits `pageC`. */
  lemma ExampleDayTwo()
    ensures ParseLog(["11:00 pageC cust1", "11:01 pageD cust1", "11:02 pageC cust2"])
         == VisitMap(["cust1", "cust2"], map["cust1" := {"pageC", "pageD"}, "cust2" := {"pageC"}])
  {
    assert "11:00 pageC cust1" == "11:00" + " " + "pageC" + " " + "cust1";
    assert "11:01 pageD cust1" == "11:01" + " " + "pageD" + " " + "cust1";
    assert "11:02 pageC cust2" == "11:02" + " " + "pageC" + " " + "cust2";
    assert ["11:00 pageC cust1", "11:01 pageD cust1", "11:02 pageC cust2"]
        == ["11:00" + " " + "pageC" + " " + "cust1", "11:01" + " " + "pageD" + " " + "cust1", "11:02" + " " + "pageC" + " " + "cust2"];
    ExampleLog("11:00", "11:01", "11:02", "cust1", "cust2", "pageC", "pageD");
  }

  /** Two distinct pages on each day qualify `cust1`; one page each leaves `cust2` out. */
  lemma TwoDayExample()
    ensures Report(["10:00 pageA cust1", "10:01 pageB cust1", "10:02 pageA cust2"],
                   ["11:00 pageC cust1", "11:01 pageD cust1", "11:02 pageC cust2"])
         == [Header, "cust1"]
    ensures Text(Report(["10:00 pageA cust1", "10:01 pageB cust1", "10:02 pageA cust2"],
                        ["11:00 pageC cust1", "11:01 pageD cust1", "11:02 pageC cust2"]))
         == "Loyal Customers ID:\ncust1\n"
  {
    ExampleText();
    ExampleDayOne();
    ExampleDayTwo();
    ExampleLoyalty(
      VisitMap(["cust1", "cust2"], map["cust1" := {"pageA", "pageB"}, "cust2" := {"pageA"}]),
      VisitMap(["cust1", "cust2"], map["cust1" := {"pageC", "pageD"}, "cust2" := {"pageC"}]));
  }

  /** The printed text of the example's report. */
  lemma ExampleText()
    ensures Text([Header, "cust1"]) == "Loyal Customers ID:\ncust1\n"
  {
    assert [Header, "cust1"] == [Header] + ["cust1"];
    TextAppend([Header], ["cust1"]);
    TextLine(Header);
    TextLine("cust1");
  }

  /** An empty day-1 log, whatever day 2 holds, prints the header and the "not available" line. */
  lemma EmptyLogReport(day2Lines: seq<string>)
    ensures Text(Report([], day2Lines)) == "Loyal Customers ID:\nLoyal customers not available.\n"
  {
    NoneText();
    NoRecordsReport([], day2Lines);
  }

  /** The "none" text, spelled out. */
  lemma NoneText()
    ensures Header + "\n" + NotAvailable + "\n" == "Loyal Customers ID:\nLoyal customers not available.\n"
  {
    var h, n := "Loyal Customers ID:\n", "Loyal customers not available.\n";
    assert Header + "\n" == h;
    assert NotAvailable + "\n" == n;
    assert Header + "\n" + NotAvailable + "\n" == h + n;
    LiteralSum(h, n);
  }

  /** The two printed lines of the "none" report, put together; kept apart from `NoneText` to keep each proof small. */
  lemma LiteralSum(h: string, n: string)
    requires h == "Loyal Customers ID:\n" && n == "Loyal customers not available.\n"
    ensures h + n == "Loyal Customers ID:\nLoyal customers not available.\n"
  {
  }

  /** The loyalty result for the example's two maps. */
  lemma ExampleLoyalty(day1: VisitMap, day2: VisitMap)
    requires day1 == VisitMap(["cust1", "cust2"], map["cust1" := {"pageA", "pageB"}, "cust2" := {"pageA"}])
    requires day2 == VisitMap(["cust1", "cust2"], map["cust1" := {"pageC", "pageD"}, "cust2" := {"pageC"}])
    ensures ReportOf(day1, day2) == [Header, "cust1"]
  {
    assert |day1.pages["cust1"]| == 2 && |day2.pages["cust1"]| == 2;
    assert |day1.pages["cust2"]| == 1;
    forall c ensures c in ["cust1"] <==> IsLoyal(day1, day2, c, DefaultThreshold) {
      if c != "cust1" && c != "cust2" {
        assert c !in day1.pages;
      }
    }
    LoyalCustomersUnique(day1, day2, DefaultThreshold, ["cust1"]);
    assert [Header] + ["cust1"] == [Header, "cust1"];
  }
}

=== FILE: seqs.dfy ===
/** Order facts about sequences shared by the per-day key order and the loyalty result. */
module Seqs {

  /** No element occurs twice. */
  predicate NoDuplicates<T(==)>(s: seq<T>) {
    forall i, j :: 0 <= i < j < |s| ==> s[i] != s[j]
  }

  /** The position of the first occurrence of `x` in `s`, or `|s|` when `x` does not occur. */
  function FirstIndex<T(==)>(s: seq<T>, x: T): (i: nat)
    ensures i <= |s|
    ensures i < |s| <==> x in s
    ensures i < |s| ==> s[i] == x
    ensures forall k :: 0 <= k < i ==> s[k] != x
  {
    if s == [] then 0
    else if s[0] == x then 0
    else 1 + FirstIndex(s[1..], x)
  }

  /** The elements of `a` appear in the order of their first occurrences in `s`. */
  ghost predicate InOrderOf<T>(a: seq<T>, s: seq<T>) {
    forall i, j :: 0 <= i < j < |a| ==> FirstIndex(s, a[i]) < FirstIndex(s, a[j])
  }

  lemma InOrderHasNoDuplicates<T>(a: seq<T>, s: seq<T>)
    ensures InOrderOf(a, s) ==> NoDuplicates(a)
  {
  }

  /** Appending to `s` leaves the first index of an element already in `s` unchanged. */
  lemma FirstIndexAppend<T>(s: seq<T>, t: seq<T>, x: T)
    ensures x in s ==> FirstIndex(s + t, x) == FirstIndex(s, x)
    ensures x !in s && x in t ==> FirstIndex(s + t, x) == |s| + FirstIndex(t, x)
  {
    var i := FirstIndex(s + t, x);
    if x in s {
      var k := FirstIndex(s, x);
      assert (s + t)[k] == x;
    } else if x in t {
      var k := FirstIndex(t, x);
      assert (s + t)[|s| + k] == x;
      assert forall m :: 0 <= m < k ==> (s + t)[|s| + m] == t[m];
    }
  }

  /** Extending `s` keeps a sequence of elements of `s` in order of first occurrence. */
  lemma InOrderExtend<T>(a: seq<T>, s: seq<T>, t: seq<T>)
    requires forall x :: x in a ==> x in s
    requires InOrderOf(a, s)
    ensures InOrderOf(a, s + t)
  {
    forall i | 0 <= i < |a|
      ensures FirstIndex(s + t, a[i]) == FirstIndex(s, a[i])
    {
      FirstIndexAppend(s, t, a[i]);
    }
  }

  /** An element new to `s`, appended to both, comes after everything already in order. */
  lemma InOrderAppendNew<T>(a: seq<T>, s: seq<T>, x: T)
    requires forall y :: y in a ==> y in s
    requires x !in s
    requires InOrderOf(a, s)
    ensures InOrderOf(a + [x], s + [x])
  {
    InOrderExtend(a, s, [x]);
    FirstIndexAppend(s, [x], x);
    var a' := a + [x];
    forall i, j | 0 <= i < j < |a'|
      ensures FirstIndex(s + [x], a'[i]) < FirstIndex(s + [x], a'[j])
    {
      assert a'[i] == a[i];
      if j < |a| {
        assert a'[j] == a[j];
      }
    }
  }

  /** Order of first occurrence is transitive for sequences drawn from one another. */
  lemma InOrderTransitive<T>(a: seq<T>, b: seq<T>, s: seq<T>)
    requires forall x :: x in a ==> x in b
    requires InOrderOf(a, b) && InOrderOf(b, s)
    ensures InOrderOf(a, s)
  {
    forall i, j | 0 <= i < j < |a|
      ensures FirstIndex(s, a[i]) < FirstIndex(s, a[j])
    {
      assert a[i] in b && a[j] in b;
      var p := FirstIndex(b, a[i]);
      var q := FirstIndex(b, a[j]);
      assert FirstIndex(s, b[p]) < FirstIndex(s, b[q]);
    }
  }

  /** Every element of `a` other than its head comes strictly later in `s` than the head. */
  lemma HeadComesFirst<T>(a: seq<T>, s: seq<T>, y: T)
    requires InOrderOf(a, s) && y in a
    ensures y == a[0] || FirstIndex(s, a[0]) < FirstIndex(s, y)
  {
    var k := FirstIndex(a, y);
    if k > 0 {
      assert FirstIndex(s, a[0]) < FirstIndex(s, a[k]);
    }
  }

  /**
    Two sequences with the same elements, both in the order of first occurrence in `s`,
    are equal: the order is determined by `s`.
   */
  lemma {:induction false} InOrderUnique<T>(a: seq<T>, b: seq<T>, s: seq<T>)
    requires forall x :: x in a <==> x in b
    requires InOrderOf(a, s) && InOrderOf(b, s)
    ensures a == b
    decreases |a|
  {
    assert |b| == 0 || b[0] in a;
    assert |a| == 0 || a[0] in b;
    if a != [] && b != [] {
      HeadComesFirst(a, s, b[0]);
      HeadComesFirst(b, s, a[0]);
      assert a[0] == b[0];
      forall x | x in a[1..]
        ensures x in b[1..]
      {
        HeadComesFirst(a, s, x);
        assert x in b && x != b[0];
      }
      forall x | x in b[1..]
        ensures x in a[1..]
      {
        HeadComesFirst(b, s, x);
        assert x in a && x != a[0];
      }
      assert InOrderOf(a[1..], s) by {
        forall i, j | 0 <= i < j < |a[1..]|
          ensures FirstIndex(s, a[1..][i]) < FirstIndex(s, a[1..][j])
        {
          assert a[1..][i] == a[i + 1] && a[1..][j] == a[j + 1];
        }
      }
      assert InOrderOf(b[1..], s) by {
        forall i, j | 0 <= i < j < |b[1..]|
          ensures FirstIndex(s, b[1..][i]) < FirstIndex(s, b[1..][j])
        {
          assert b[1..][i] == b[i + 1] && b[1..][j] == b[j + 1];
        }
      }
      InOrderUnique(a[1..], b[1..], s);
      assert a == [a[0]] + a[1..] && b == [b[0]] + b[1..];
    }
  }
}

=== FILE: wrappers.dfy ===
/** The optional-value datatype used for lines that may or may not carry a log record. */
module Wrappers {

  datatype Option<+T> = None | Some(value: T)
}
